=== FILE: README.md ===
# Bar-chart drawing pass and drive-status texts, in Dafny

This project models the drawing pass of the monitoring dashboard's horizontal bar chart
(`CustomBarChart._render_now` in `gui.py`). It also models the two small text decoders
shown beside the charts: the drive-state label and the 8-digit binary status word.

One drawing pass starts from three inputs:
- the chart's interior box, which the charting library's border handling produced;
- the chart configuration;
- one reading per bar.

From these it produces the ordered list of `_write(text, x, y, colour, bg)` commands the
pass issues. Each command is a `Canvas.Write`. The cells that the glyph runs (the bars
and the X axis) leave painted are given by `Canvas.FillAt`, where later runs paint over
earlier ones. Single-character and text writes (the Y axis, the corner, tick marks,
labels, keys and readings) are stated write by write instead.

The modules follow the structure of the pass:

- `ChartSpec`: the configuration record (glyph, colour and background lists, gradient
  breakpoints, optional scale, axes, optional integer interval, labels, keys, optional
  gap, line characters) and the interior `Box`.
- `Geometry`: the reservations for the key column, axes and label row. Also the
  effective scale and the conversion `int(v * int_w / scale)` from chart units to cells
  (`Cells`, where Python's `int()` truncates toward zero as `Arith.Trunc`). Also the bar
  thickness, the gap between bars, each bar's top row, and the interval ticks.
- `Gradient`: the gradient segmentation loop, written literally with its two loop
  variables `last` and `size` (`Runs`). Beside it are a reference colouring
  (`FirstAbove`: the first breakpoint whose scaled value exceeds the cell) and the
  theorems that connect the two.
- `Render`: the writes of a pass in source order: axes, label row, interval ticks, then
  for each bar its key, its reading and its runs. The pass's outcome is `Drawn`, `Raises`
  (an exception stops it) or `Hangs` (the tick loop never ends).
- `Numerals`: `str(n)` for integers, the digit part of `bin(n)`, their parsers, and
  `str.zfill`.
- `DriveStatus`: the drive-state decoder and `bin(v)[2:].zfill(8)`.

Readings and gradient thresholds are exact `real`s. The scale and the interval are `int`s.

The tick for interval value `i` sits at column `start_x + int(i * int_w / scale) - 1`
(gui.py:79): one column left of the scaled position, truncated toward zero.

## Model

| member | source | states |
|---|---|---|
| `Geometry.Reserve` | gui.py:37-53 | Keys take 7 columns and a Y axis 1 column from the interior width. An X axis and the label row each take 1 row from its height. The right edge and the top row never move. |
| `Geometry.UnscaledCells` | gui.py:102 | Without a scale (scale = interior width), a whole non-negative reading `v` gives a bar of exactly `v` cells. |
| `Geometry.BarLengthAgainstScale` | gui.py:102 | A non-negative reading gives a non-negative bar length. The bar fits in the interior while the reading is at most the scale, and spans at least the interior once the reading reaches the scale. |
| `Geometry.CellsMonotone` | gui.py:123 | Converting to cells keeps non-negative thresholds non-negative and preserves their order. |
| `Geometry.DoubleBarsLeaveGap` | gui.py:92-97 | For two or more bars, bars are two rows thick exactly when doubled bars still leave a computed gap of at least one row. |
| `Geometry.BarRowsAscending` | gui.py:103 | With a non-negative gap, every bar ends at or above the top row of every later bar, so bars never overlap. |
| `Geometry.LastBarFlush` | gui.py:92-103 | With the computed gap and two or more bars, the last bar ends exactly on the interior's last row. |
| `Geometry.BarsWithinInterior` | gui.py:92-103 | When the bars fit, every bar's rows lie inside the interior. |
| `Geometry.Ticks` | gui.py:76-89 | Starting from `from` (the loop starts at `interval`), the j-th tick value is `from + j*interval`. Every listed value is below the scale, and the next step would reach it. |
| `Geometry.TickWithinInterior` | gui.py:79 | A tick strictly between 0 and the scale lies from the column left of the interior up to before the interior's last column. |
| `Geometry.TicksAscending` | gui.py:79 | Larger interval values never get ticks to the left of smaller ones. |
| `Geometry.WholeTicksAgree` | gui.py:83-89 | For whole tick values of at least 1, the label rounding written back into the loop variable changes nothing, so the loop steps exactly as `Ticks` does. |
| `Geometry.TicksInstance` | gui.py:76-89 | For whole numbers, `Ticks` lists exactly the corrected tick values: the same count, and equal element by element. |
| `Geometry.TickLoopStalls` | gui.py:83-89 | With labels on and interval 0.5, the loop variable goes 0.5, 1.0, 1.5 and then stays at 1.5. |
| `Geometry.TickValues` | gui.py:76-89 | The intended tick values for any positive interval, fractional ones included: `from + j*interval` below the scale, ending at the first value that reaches it. |
| `Gradient.Runs` | gui.py:118-136 | The loop emits at most one run per breakpoint. No run extends past the bar's length or the interior width. Runs start at or after the bar's origin when the breakpoints are non-negative. |
| `Gradient.GradientColours` | gui.py:118-136 | For ascending non-negative scaled breakpoints, cell k is painted exactly when `0 <= k < min(bar_len, int_w, last scaled breakpoint)`. It then takes the colours of the first breakpoint whose scaled value exceeds k. |
| `Gradient.GradientCellCount` | gui.py:120-136 | Under the same order, the run lengths add up to `max(0, min(bar_len, int_w, last scaled breakpoint))`. |
| `Gradient.GradientContiguous` | gui.py:120-136 | Under the same order, the first run starts at the bar's origin and each later run starts where the previous one ended. Every run but the last is non-empty. |
| `Gradient.GradientStaysInBar` | gui.py:124-131 | For non-negative breakpoints in any order, every painted cell lies in `[0, min(bar_len, int_w))`. |
| `Canvas.FillAtColumn` | gui.py:139-140 | A run of `bar_len` glyphs written on `bar_size` consecutive rows paints exactly that rectangle, in the run's colours. |
| `Render.FillAtPaintRuns` | gui.py:129-131 | On each of the bar's rows, the displayed cell `start_x + k` shows the colours the runs leave at offset k. Rows outside the bar are untouched. |
| `Render.ScaledBandsAscending` | gui.py:122-123 | Ascending non-negative thresholds scale to ascending non-negative cell positions. |
| `Render.GradientBarCells` | gui.py:115-136 | End to end for a gradient bar: on the bar's rows, cell `start_x + k` shows the first breakpoint above k for `k < min(bar_len, int_w, last scaled breakpoint)`, and nothing elsewhere. |
| `Render.SolidBarCells` | gui.py:137-140 | Without a gradient, the bar paints exactly its first `bar_len` cells on each of its rows. They take the bar's colour and background, chosen by index modulo the list lengths. |
| `Render.LabelWrites` | gui.py:66-73 | The label row is drawn below the interior, one row lower when there is an X axis. It holds "0" at the interior's left edge and the scale, right-aligned to the right edge, printed as `str(scale)`: decimal digits without a leading zero, after a '-' exactly when the scale is negative, reading back as the scale. |
| `Render.TickMark` | gui.py:79-88 | A tick draws the inside-tick character on each interior row, then the axis-tick character on row `start_y + int_h` (the axis row when there is an X axis), all in the tick's column. With labels on, it also draws the value on row `start_y + int_h + 1` whatever the axes, centred under the column, printed as `str(i)`: decimal digits only, no leading zero, reading back as the value. |
| `Render.MaxLength` | gui.py:39 | The result is the length of the longest key: no key is longer, and some key is exactly that long. |
| `Render.BarBlock` | gui.py:106-111 | With keys, the key goes on the bar's top row, right-aligned to the longest key, and the reading goes two rows below in the same column. The bar's runs follow. |
| `Render.Draw` | gui.py:58-89 | The axes, label row and ticks are written before any bar. |
| `Render.Render` | gui.py:34-142 | Characterises how the pass ends. It hangs exactly when a non-positive interval lies below a non-zero scale. It completes exactly when the tick loop ends and, if there are bars, the scale is non-zero, both colour lists are non-empty and, when keys are given, there is a key for every bar. |
| `Render.DrawEndsAtLastBar` | gui.py:100-142 | Nothing is written after the last bar: the pass's writes are exactly the decorations followed by every bar's block. |
| `Render.DrawsEveryBar` | gui.py:100-140 | Bar i's writes appear whole and in order, right after the decorations and the writes of bars 0 .. i-1. |
| `Render.AxesOnReservedLines` | gui.py:44-73 | The axes and labels land on the lines the reservations freed. The X axis runs along the box's last row, or the row above it when labels are on, and ends at the box's right edge. The Y axis fills the column right after the key column. The "0" and scale labels sit on the box's last row. |
| `Numerals.FromToDigits` | gui.py:87 | The digit string of a natural number reads back as that number. |
| `Numerals.ParseDecimalInverse` | gui.py:72 | `str(n)` of any integer, sign included, reads back as n. |
| `Numerals.ZeroFill` | gui.py:260 | `zfill` pads on the left with '0' up to the width and keeps the string as its suffix. |
| `Numerals.ZeroFillValue` | gui.py:260 | Zero-filling a digit string does not change the number it reads as. |
| `Numerals.BinaryDigitsLength` | gui.py:260 | `bin(n)[2:]` has `max(1, n.bit_length())` digits. |
| `DriveStatus.DriveState` | gui.py:225-249 | Each documented code maps to its label, and every other value maps to "Value error". |
| `DriveStatus.DriveStateDecodes` | gui.py:229-249 | Exactly the codes 0, 1, 4, 5, 6, 7, 9, 15 and 16 get a real label, and distinct codes get distinct labels. |
| `DriveStatus.StatusBits` | gui.py:260 | For v >= 0: only '0' and '1', length `max(8, bit_length(v))`, and it reads back as v. For v < 0: zero padding, then the 'b' left over from "-0b", then the digits of -v. |
| `DriveStatus.StatusBitsWidth` | gui.py:270 | Words below 256 print as exactly eight digits. Wider words keep all their digits, led by a '1'. |

## Left out

- The charting and terminal library is not part of this model: `_setup_chart`, `_write`, the image buffers, screens, frames, effects and scene playback. `_setup_chart`'s interior box is an input. `_write` appends a `Write`, with the library's default black background.
- Writes falling outside the frame are kept as issued. The library's clipping is not modelled.
- The OPC-UA connection, the subscription handler and the shared buffer it overwrites from another thread are left out. They are network I/O and concurrency, so readings are plain inputs.
- The resize/restart loop and the on-screen text field are left out as terminal I/O.
- The reading printed beside a key (`str(fn())`) is kept as the number itself (`Reading(v)`), because float formatting is out of scope.
- Each bar's reading is taken once. The source calls `fn()` a second time for the printed reading (gui.py:111), and that second call can see a newer buffer.
- Readings, thresholds and the gap are exact reals. Floating-point rounding of `v * int_w / scale` and of the gap division is not modelled.
- Only whole-number intervals are drawn. For fractional intervals, the label rounding at gui.py:84-86 and float label text are out of scope beyond the finding below.
- The scaling accessor `getValue(i, scale)` is left out: it is float division on a buffer read.
- `Render.Render`: the writes issued before an exception or inside an endless tick loop are not reported. Only the kind of ending is.
- `Gradient.GradientColours`, `Gradient.GradientCellCount`, `Gradient.GradientContiguous` and `Render.GradientBarCells` are stated only for ascending, non-negative scaled breakpoints. For other orders the loop's runs can overlap, and only `Gradient.GradientStaysInBar` and the bounds in `Gradient.Runs` are proved.
- `Geometry.BarLengthAgainstScale`, `Geometry.CellsMonotone`, `Geometry.TickWithinInterior` and `Geometry.TicksAscending` assume a positive scale and a non-negative interior width. The functions themselves accept any non-zero scale.
- `Numerals.ZeroFill` does not treat a leading '+' or '-' specially, as Python's `zfill` does. No such string reaches it here, because `bin(v)[2:]` never starts with a sign.

## Findings

| source | as written | input that shows it | evidently intended | confidence | as-written member | corrected member |
|---|---|---|---|---|---|---|
| gui.py:83-89 | With labels on, the label value `int(i*10)/10`, floored from 1 upward, is written back into the loop variable, and the next tick steps from it. | interval 0.5, labels on, scale 10: `i` goes 0.5, 1.0, 1.5, 1.5, ... and the loop never ends | round a copy for the label text and step `i` by the interval | not executed; high (0.5, 1.0 and 1.5 are exact in binary floating point) | `Geometry.TickLoopStalls` | `Geometry.TickValues` |

For whole-number intervals the write-back changes nothing (`Geometry.WholeTicksAgree`).
The renderer therefore uses `Geometry.Ticks`, which for whole numbers lists exactly the
corrected sequence (`Geometry.TicksInstance`).

=== FILE: arith.dfy ===
/** Integer helpers and Python's `int()` on a number, which truncates toward zero. */
module Arith {

  function Min(a: int, b: int): int {
    if a <= b then a else b
  }

  function Max(a: int, b: int): int {
    if a >= b then a else b
  }

  /** `int(x)`: drops the fractional part, so it rounds toward zero (unlike `Floor`). */
  function Trunc(x: real): (r: int)
    ensures 0.0 <= x ==> 0 <= r && r as real <= x < r as real + 1.0
    ensures x < 0.0 ==> r <= 0 && r as real - 1.0 < x <= r as real
  {
    if x >= 0.0 then x.Floor else -((-x).Floor)
  }

  /** Truncation preserves order. */
  lemma {:induction false} TruncMonotone(x: real, y: real)
    requires x <= y
    ensures Trunc(x) <= Trunc(y)
  {
  }

  /** Truncating a whole number gives it back. */
  lemma {:induction false} TruncOfInt(n: int)
    ensures Trunc(n as real) == n
  {
  }

  lemma {:induction false} MulMonotone(a: real, b: real, c: real)
    requires a <= b && 0.0 <= c
    ensures a * c <= b * c
  {
  }

  lemma {:induction false} DivMonotone(a: real, b: real, s: real)
    requires 0.0 < s && a <= b
    ensures a / s <= b / s
  {
    assert b / s - a / s == (b - a) / s;
  }

  lemma {:induction false} MulDivCancel(a: real, s: real)
    requires s != 0.0
    ensures a * s / s == a && s * (a / s) == a
  {
  }

  /** `int(a * w / s)` grows with `a` and is never negative, for non-negative `a`, `w` and positive `s`. */
  lemma {:induction false} ScaledTruncMonotone(a: real, b: real, w: real, s: real)
    requires 0.0 < s && 0.0 <= w && 0.0 <= a <= b
    ensures 0 <= Trunc(a * w / s) <= Trunc(b * w / s)
  {
    MulMonotone(0.0, a, w);
    DivMonotone(0.0, a * w, s);
    MulMonotone(a, b, w);
    DivMonotone(a * w, b * w, s);
    TruncMonotone(a * w / s, b * w / s);
  }

  /** One more copy of `a`. */
  lemma {:induction false} MulSucc(k: int, a: int)
    ensures (k + 1) * a == k * a + a
  {
  }

  function Pow2(n: nat): (p: nat)
    ensures p >= 1
  {
    if n == 0 then 1 else 2 * Pow2(n - 1)
  }

  lemma {:induction false} Pow2Grows(a: nat, b: nat)
    requires a <= b
    ensures Pow2(a) <= Pow2(b)
    decreases b - a
  {
    if a < b {
      Pow2Grows(a, b - 1);
    }
  }
}

=== FILE: canvas.dfy ===
/**
 * What the renderer hands to the display: one command per `_write(text, x, y, colour, bg)`
 * call, in call order, and the cells their glyph runs (bars and the X axis) leave painted.
 */
module Canvas {
  import opened Arith
  import opened Optional

  /** The terminal palette, numbered 0..7 by the display library in this order. */
  datatype Colour = Black | Red | Green | Yellow | Blue | Magenta | Cyan | White

  datatype Style = Style(fg: Colour, bg: Colour)

  /** Text of one write: a literal, a glyph repeated `count` times (none when `count <= 0`,
      as with Python's `str * n`), or the printed form of a reading. */
  datatype Text = Str(s: string) | Fill(glyph: char, count: int) | Reading(v: real)

  datatype Write = Write(text: Text, x: int, y: int, style: Style)

  /** The same text written on `rows` consecutive rows, top row first (`for line in range(rows)`). */
  function Column(text: Text, x: int, y: int, rows: int, style: Style): (ws: seq<Write>)
    ensures |ws| == Max(0, rows)
    ensures forall j :: 0 <= j < |ws| ==> ws[j] == Write(text, x, y + j, style)
    decreases rows
  {
    if rows <= 0 then [] else Column(text, x, y, rows - 1, style) + [Write(text, x, y + rows - 1, style)]
  }

  /** Style left at cell (x, y) by the glyph runs among `ws`: later writes paint over earlier ones. */
  function FillAt(ws: seq<Write>, x: int, y: int): Option<Style>
    decreases |ws|
  {
    if |ws| == 0 then None
    else
      var w := ws[|ws| - 1];
      if w.text.Fill? && w.y == y && w.x <= x < w.x + w.text.count then Some(w.style)
      else FillAt(ws[..|ws| - 1], x, y)
  }

  /** Painting `a` then `b`: a cell shows `b`'s paint where `b` painted it, `a`'s otherwise. */
  lemma {:induction false} FillAtConcat(a: seq<Write>, b: seq<Write>, x: int, y: int)
    ensures FillAt(a + b, x, y) == if FillAt(b, x, y).Some? then FillAt(b, x, y) else FillAt(a, x, y)
    decreases |b|
  {
    if |b| == 0 {
      assert a + b == a;
    } else {
      var ab := a + b;
      assert ab[..|ab| - 1] == a + b[..|b| - 1];
      assert ab[|ab| - 1] == b[|b| - 1];
      FillAtConcat(a, b[..|b| - 1], x, y);
    }
  }

  /** A run of `count` glyphs written on rows y .. y+rows-1 paints exactly that rectangle. */
  lemma {:induction false} FillAtColumn(glyph: char, count: int, x0: int, y0: int, rows: int, style: Style, x: int, y: int)
    ensures FillAt(Column(Fill(glyph, count), x0, y0, rows, style), x, y)
         == if y0 <= y < y0 + rows && x0 <= x < x0 + count then Some(style) else None
    decreases rows
  {
    if rows > 0 {
      FillAtColumn(glyph, count, x0, y0, rows - 1, style, x, y);
    }
  }

  /** The blocks of writes issued one after another. */
  function Concat<T>(blocks: seq<seq<T>>): seq<T>
    decreases |blocks|
  {
    if |blocks| == 0 then [] else blocks[0] + Concat(blocks[1..])
  }

  /** Where block `i` starts in `Concat(blocks)`: the total length of the blocks before it. */
  function Offset<T>(blocks: seq<seq<T>>, i: nat): nat
    requires i <= |blocks|
    decreases i
  {
    if i == 0 then 0 else Offset(blocks, i - 1) + |blocks[i - 1]|
  }

  /** The concatenation ends where the last block ends: nothing follows it. */
  lemma {:induction false} ConcatLength<T>(blocks: seq<seq<T>>)
    ensures |Concat(blocks)| == Offset(blocks, |blocks|)
    decreases |blocks|
  {
    if 0 < |blocks| {
      ConcatLength(blocks[1..]);
      OffsetOfTail(blocks, |blocks|);
    }
  }

  /** Each block appears whole, at its offset, in the concatenation. */
  lemma {:induction false} ConcatHoldsBlock<T>(blocks: seq<seq<T>>, i: nat)
    requires i < |blocks|
    ensures Offset(blocks, i) + |blocks[i]| <= |Concat(blocks)|
    ensures Concat(blocks)[Offset(blocks, i)..Offset(blocks, i) + |blocks[i]|] == blocks[i]
    decreases i
  {
    var rest := blocks[1..];
    assert Concat(blocks) == blocks[0] + Concat(rest);
    if i == 0 {
      assert (blocks[0] + Concat(rest))[..|blocks[0]|] == blocks[0];
    } else {
      ConcatHoldsBlock(rest, i - 1);
      OffsetOfTail(blocks, i);
      var o := Offset(rest, i - 1);
      SliceAfterPrefix(blocks[0], Concat(rest), o, o + |rest[i - 1]|);
    }
  }

  /** A slice taken after a prefix is the same slice of what follows the prefix. */
  lemma {:induction false} SliceAfterPrefix<T>(d: seq<T>, c: seq<T>, lo: nat, hi: nat)
    requires lo <= hi <= |c|
    ensures (d + c)[|d| + lo..|d| + hi] == c[lo..hi]
  {
    assert forall k | 0 <= k < hi - lo :: (d + c)[|d| + lo..|d| + hi][k] == c[lo..hi][k];
  }

  /** The same, after a prefix `d` written before all blocks. */
  lemma {:induction false} PrefixThenBlock<T>(d: seq<T>, blocks: seq<seq<T>>, i: nat)
    requires i < |blocks|
    ensures |d| + Offset(blocks, i) + |blocks[i]| <= |d + Concat(blocks)|
    ensures (d + Concat(blocks))[|d| + Offset(blocks, i)..|d| + Offset(blocks, i) + |blocks[i]|] == blocks[i]
  {
    ConcatHoldsBlock(blocks, i);
    var o := Offset(blocks, i);
    SliceAfterPrefix(d, Concat(blocks), o, o + |blocks[i]|);
  }

  lemma {:induction false} OffsetOfTail<T>(blocks: seq<seq<T>>, i: nat)
    requires 0 < i <= |blocks|
    ensures Offset(blocks, i) == |blocks[0]| + Offset(blocks[1..], i - 1)
    decreases i
  {
    if i > 1 {
      OffsetOfTail(blocks, i - 1);
    }
  }
}

=== FILE: chart.dfy ===
/**
 * Configuration of one horizontal bar chart, as the chart object holds it after
 * construction, and the interior box its border handling yields.
 */
module ChartSpec {
  import opened Optional
  import opened Canvas

  /** Columns reserved on the left for the key and the reading under it, whatever the key lengths. */
  const KeyColumn: int := 7

  /** Interior of the chart before any reservation: height, width and top-left cell. */
  datatype Box = Box(intH: int, intW: int, startX: int, startY: int)

  /** Which axes to draw; the library's bit mask (X axis 1, Y axis 2, both 3) as two flags. */
  datatype Axes = Axes(x: bool, y: bool)

  /** Line-drawing characters the library chose for this terminal. */
  datatype LineChars = LineChars(h: char, v: char, upRight: char, vInside: char, hUp: char)

  /** A gradient band: cells below `threshold` (in chart units) take `style`. */
  datatype Breakpoint = Breakpoint(threshold: real, style: Style)

  datatype Chart = Chart(
    glyph: char,
    colours: seq<Colour>,
    bgs: seq<Colour>,
    gradient: seq<Breakpoint>,
    scale: Option<int>,
    axes: Axes,
    intervals: Option<int>,
    labels: bool,
    keys: seq<string>,
    gap: Option<real>,
    lines: LineChars)
}

=== FILE: drive.dfy ===
/**
 * Status texts printed beside the charts: the drive-state label for a state code, and
 * the 8-digit binary rendering of the alert and info words.
 */
module DriveStatus {
  import opened Arith
  import opened Numerals

  const ValueError: string := "Value error"

  /** The documented drive-state codes and their labels. */
  const StateLabels: map<int, string> := map[
    0 := "Inibito",
    1 := "Pronto",
    4 := "In marcia",
    5 := "Perdita alimentazione",
    6 := "Decelerazione",
    7 := "Immissione cc",
    9 := "Errore",
    15 := "Sotto tensione",
    16 := "Inizializzazione"]

  /** Label of a drive-state code; any undocumented code reads "Value error". */
  function DriveState(code: int): (name: string)
    ensures code in StateLabels ==> name == StateLabels[code]
    ensures code !in StateLabels ==> name == ValueError
  {
    match code
    case 0 => "Inibito"
    case 1 => "Pronto"
    case 4 => "In marcia"
    case 5 => "Perdita alimentazione"
    case 6 => "Decelerazione"
    case 7 => "Immissione cc"
    case 9 => "Errore"
    case 15 => "Sotto tensione"
    case 16 => "Inizializzazione"
    case _ => ValueError
  }

  /** Exactly the nine documented codes get a real label, and distinct codes get distinct labels. */
  lemma {:induction false} DriveStateDecodes(a: int, b: int)
    ensures DriveState(a) != ValueError <==> a in {0, 1, 4, 5, 6, 7, 9, 15, 16}
    ensures DriveState(a) == DriveState(b) && DriveState(a) != ValueError ==> a == b
  {
  }

  /** Python's `bin(v)`: "0b" and the binary digits of `v`, or "-0b" and those of `-v`. */
  function Bin(v: int): (lit: string)
    ensures 3 <= |lit|
  {
    if v < 0 then "-0b" + ToDigits(-v, 2) else "0b" + ToDigits(v, 2)
  }

  /**
   * `bin(v)[2:].zfill(8)`. For a non-negative word: its binary digits, left-padded with
   * zeros to at least eight, reading back as `v`. For a negative one, slicing off two
   * characters leaves the 'b' of "-0b" in front of the digits of `-v`, and the padding
   * goes in front of that 'b'.
   */
  function StatusBits(v: int): (bits: string)
    ensures 0 <= v ==>
              && (forall i :: 0 <= i < |bits| ==> bits[i] == '0' || bits[i] == '1')
              && |bits| == Max(8, BitLength(v))
              && FromDigits(bits, 2) == v
    ensures v < 0 ==>
              var d := ToDigits(-v, 2);
              && |bits| == Max(8, |d| + 1)
              && bits[|bits| - |d|..] == d
              && bits[|bits| - |d| - 1] == 'b'
              && forall i :: 0 <= i < |bits| - |d| - 1 ==> bits[i] == '0'
  {
    var lit := Bin(v);
    if 0 <= v then
      var digits := ToDigits(v, 2);
      assert lit[2..] == digits;
      FromToDigits(v, 2);
      BinaryDigitsLength(v);
      BinaryDigits(v, 8);
      ZeroFillValue(digits, 8, 2);
      ZeroFill(lit[2..], 8)
    else
      var d := ToDigits(-v, 2);
      assert lit[2..] == "b" + d;
      ZeroFill(lit[2..], 8)
  }

  /** Words below 256 print as exactly eight digits; wider words keep all their digits, led by a 1. */
  lemma {:induction false} StatusBitsWidth(v: int)
    requires 0 <= v
    ensures v < 256 ==> |StatusBits(v)| == 8
    ensures 256 <= v ==> |StatusBits(v)| == BitLength(v) && StatusBits(v)[0] == '1'
  {
    var bits := StatusBits(v);
    var b := BitLength(v);
    assert |bits| == Max(8, b);
    BitLengthBounds(v);
    if v < 256 {
      if b > 8 {
        Pow2Grows(8, b - 1);
      }
    } else {
      if b <= 8 {
        Pow2Grows(b, 8);
      }
      BinaryDigitsLength(v);
      var d := ToDigits(v, 2);
      assert Bin(v)[2..] == d;
      assert bits == ZeroFill(d, 8);
      assert bits[0] == d[0];
    }
  }
}

=== FILE: geometry.dfy ===
/**
 * Chart geometry: the space reserved for keys, axes and labels, the scale, the bar
 * thickness, the spacing of the bars, and the columns of the interval ticks.
 */
module Geometry {
  import opened Arith
  import opened Optional
  import opened ChartSpec

  /**
   * Carves the key column, the axes and the label row out of the interior box.
   * Reservations on the left shift the interior right, so its right edge never moves;
   * reservations at the bottom shorten it, so its top row never moves.
   */
  function Reserve(box: Box, hasKeys: bool, axes: Axes, labels: bool): (inner: Box)
    ensures inner.intW == box.intW - (if hasKeys then KeyColumn else 0) - (if axes.y then 1 else 0)
    ensures inner.intH == box.intH - (if axes.x then 1 else 0) - (if labels then 1 else 0)
    ensures inner.startX + inner.intW == box.startX + box.intW
    ensures inner.startY == box.startY
  {
    var keyed := if hasKeys then box.(intW := box.intW - KeyColumn, startX := box.startX + KeyColumn) else box;
    var xAxis := if axes.x then keyed.(intH := keyed.intH - 1) else keyed;
    var yAxis := if axes.y then xAxis.(intW := xAxis.intW - 1, startX := xAxis.startX + 1) else xAxis;
    if labels then yAxis.(intH := yAxis.intH - 1) else yAxis
  }

  /** The configured scale, or the interior width (one unit per cell) when none is set. */
  function EffectiveScale(scale: Option<int>, intW: int): int {
    scale.GetOr(intW)
  }

  /**
   * A quantity in chart units converted to cells, `int(v * int_w / scale)`: the length
   * of the bar of reading `v`, and the cell where a gradient threshold `v` falls.
   */
  function Cells(v: real, intW: int, scale: int): int
    requires scale != 0
  {
    Trunc(v * intW as real / scale as real)
  }

  /** Without a scale, a whole non-negative reading `v` draws exactly `v` cells. */
  lemma {:induction false} UnscaledCells(v: nat, intW: int)
    requires intW > 0
    ensures Cells(v as real, intW, EffectiveScale(None, intW)) == v
  {
    var w := intW as real;
    var x := v as real * w / w;
    assert EffectiveScale(None, intW) == intW;
    CellsOf(v as real, intW, intW, x);
    assert Cells(v as real, intW, intW) == Trunc(x);
    MulDivCancel(v as real, w);
    assert x == v as real;
    TruncOfInt(v);
    assert Trunc(x) == v;
  }

  lemma {:induction false} CellsOf(v: real, intW: int, scale: int, x: real)
    requires scale != 0 && x == v * intW as real / scale as real
    ensures Cells(v, intW, scale) == Trunc(x)
  {
  }

  /** A non-negative reading fits in the interior exactly up to the scale, and fills it from there on. */
  lemma {:induction false} BarLengthAgainstScale(v: real, intW: int, scale: int)
    requires 0 < scale && 0 <= intW && 0.0 <= v
    ensures 0 <= Cells(v, intW, scale)
    ensures v <= scale as real ==> Cells(v, intW, scale) <= intW
    ensures scale as real <= v ==> intW <= Cells(v, intW, scale)
  {
    var w, s := intW as real, scale as real;
    var x := v * w / s;
    CellsOf(v, intW, scale, x);
    MulMonotone(0.0, v, w);
    DivMonotone(0.0, v * w, s);
    MulDivCancel(w, s);
    assert s * w / s == w;
    TruncOfInt(intW);
    if v <= s {
      MulMonotone(v, s, w);
      DivMonotone(v * w, s * w, s);
      TruncMonotone(x, w);
    }
    if s <= v {
      MulMonotone(s, v, w);
      DivMonotone(s * w, v * w, s);
      TruncMonotone(w, x);
    }
  }

  /** Conversion to cells keeps non-negative quantities non-negative and preserves their order. */
  lemma {:induction false} CellsMonotone(a: real, b: real, intW: int, scale: int)
    requires 0 < scale && 0 <= intW && 0.0 <= a <= b
    ensures 0 <= Cells(a, intW, scale) <= Cells(b, intW, scale)
  {
    var w, s := intW as real, scale as real;
    CellsOf(a, intW, scale, a * w / s);
    CellsOf(b, intW, scale, b * w / s);
    ScaledTruncMonotone(a, b, w, s);
  }

  /** Bar thickness for `n` bars: two rows when the interior is at least 3n - 1 rows high. */
  function BarSize(intH: int, n: nat): int {
    if intH >= 3 * n - 1 then 2 else 1
  }

  /** Rows between consecutive bars: the configured gap, or the spare rows shared evenly (possibly fractional). */
  function Gap(explicit: Option<real>, intH: int, barSize: int, n: nat): real {
    match explicit
    case Some(g) => g
    case None => if n <= 1 then 0.0 else (intH - barSize * n) as real / (n - 1) as real
  }

  /** Top row of bar `i`: the gaps accumulate exactly and are truncated once, per bar. */
  function BarRow(startY: int, i: nat, barSize: int, gap: real): int {
    startY + i * barSize + Trunc(i as real * gap)
  }

  /** Bars are doubled exactly when doubled bars still leave at least one empty row between neighbours. */
  lemma {:induction false} DoubleBarsLeaveGap(intH: int, n: nat)
    requires 2 <= n
    ensures BarSize(intH, n) == 2 <==> Gap(None, intH, 2, n) >= 1.0
  {
    var d := (n - 1) as real;
    var g := Gap(None, intH, 2, n);
    assert g * d == (intH - 2 * n) as real;
    if g >= 1.0 {
      assert g * d >= d;
    } else {
      assert g * d < d;
    }
  }

  /** With a non-negative gap, each bar ends at or above the top row of every later bar. */
  lemma {:induction false} BarRowsAscending(startY: int, barSize: int, gap: real, i: nat, j: nat)
    requires 0 <= barSize && 0.0 <= gap && i < j
    ensures BarRow(startY, i, barSize, gap) + barSize <= BarRow(startY, j, barSize, gap)
  {
    assert i as real * gap <= j as real * gap;
    TruncMonotone(i as real * gap, j as real * gap);
    assert (i + 1) * barSize <= j * barSize;
  }

  /** With the computed gap and at least two bars, the last bar ends on the interior's last row. */
  lemma {:induction false} LastBarFlush(startY: int, intH: int, n: nat)
    requires 2 <= n
    ensures var b := BarSize(intH, n);
            BarRow(startY, n - 1, b, Gap(None, intH, b, n)) + b == startY + intH
  {
    var b := BarSize(intH, n);
    var spare := intH - b * n;
    var d := (n - 1) as real;
    assert d * (spare as real / d) == spare as real;
    TruncOfInt(spare);
    assert (n - 1) * b + spare + b == intH;
  }

  /** When the interior is tall enough for all bars, the computed layout keeps every bar inside it. */
  lemma {:induction false} BarsWithinInterior(startY: int, intH: int, n: nat, i: nat)
    requires i < n && BarSize(intH, n) * n <= intH
    ensures var b := BarSize(intH, n);
            var row := BarRow(startY, i, b, Gap(None, intH, b, n));
            startY <= row && row + b <= startY + intH
  {
    var b := BarSize(intH, n);
    var gap := Gap(None, intH, b, n);
    if n == 1 {
      assert BarRow(startY, 0, b, gap) == startY;
    } else {
      assert gap >= 0.0;
      assert 0.0 <= i as real * gap;
      if i < n - 1 {
        BarRowsAscending(startY, b, gap, i, n - 1);
      }
      LastBarFlush(startY, intH, n);
    }
  }

  /** Interval values `from`, `from + interval`, ... below `scale`: the tick loop's successive `i`. */
  function Ticks(interval: int, scale: int, from: int): (ts: seq<int>)
    requires 0 < interval
    ensures forall j :: 0 <= j < |ts| ==> ts[j] == from + j * interval && ts[j] < scale
    ensures scale <= from + |ts| * interval
    decreases scale - from
  {
    if from < scale then
      var rest := Ticks(interval, scale, from + interval);
      PrependTick(interval, scale, from, rest);
      [from] + rest
    else []
  }

  lemma {:induction false} PrependTick(interval: int, scale: int, from: int, rest: seq<int>)
    requires from < scale
    requires forall j :: 0 <= j < |rest| ==> rest[j] == from + interval + j * interval && rest[j] < scale
    requires scale <= from + interval + |rest| * interval
    ensures forall j :: 0 <= j < |[from] + rest| ==> ([from] + rest)[j] == from + j * interval && ([from] + rest)[j] < scale
    ensures scale <= from + |[from] + rest| * interval
  {
    var ts := [from] + rest;
    forall j | 0 <= j < |ts|
      ensures ts[j] == from + j * interval && ts[j] < scale
    {
      if 0 < j {
        assert ts[j] == rest[j - 1];
        MulSucc(j - 1, interval);
      }
    }
    MulSucc(|rest|, interval);
  }

  /** Column of the tick for interval value `t`: `start_x + int(t * int_w / scale) - 1`. */
  function TickX(startX: int, intW: int, scale: int, t: int): int
    requires scale != 0
  {
    startX + Trunc((t * intW) as real / scale as real) - 1
  }

  /** A tick strictly between 0 and the scale sits from the column left of the interior up to before its last column. */
  lemma {:induction false} TickWithinInterior(startX: int, intW: int, scale: int, t: int)
    requires 0 < scale && 0 <= intW && 0 < t < scale
    ensures startX - 1 <= TickX(startX, intW, scale, t)
    ensures 0 < intW ==> TickX(startX, intW, scale, t) < startX + intW - 1
  {
    var x := (t * intW) as real / scale as real;
    assert x * scale as real == (t * intW) as real;
    assert 0 <= t * intW;
    if 0 < intW {
      assert t * intW < scale * intW;
      assert x < intW as real;
    }
  }

  /** Ticks for larger interval values never lie left of ticks for smaller ones. */
  lemma {:induction false} TicksAscending(startX: int, intW: int, scale: int, t: int, u: int)
    requires 0 < scale && 0 <= intW && t <= u
    ensures TickX(startX, intW, scale, t) <= TickX(startX, intW, scale, u)
  {
    assert t * intW <= u * intW;
    var s := scale as real;
    assert (t * intW) as real / s <= (u * intW) as real / s;
    TruncMonotone((t * intW) as real / s, (u * intW) as real / s);
  }

  /** With labels on, the tick loop overwrites `i` with its label value: `int(i*10)/10`, then `floor` from 1 on. */
  function LabelRound(i: real): real {
    var r := Trunc(i * 10.0) as real / 10.0;
    if r >= 1.0 then r.Floor as real else r
  }

  /** The tick loop's next `i` as the code computes it: the label rounding feeds back into the loop variable. */
  function NextTickAsWritten(i: real, interval: real, labels: bool): real {
    (if labels then LabelRound(i) else i) + interval
  }

  /** Whole tick values are their own labels, so for whole intervals the loop steps exactly as `Ticks` does. */
  lemma {:induction false} WholeTicksAgree(i: int, interval: int, labels: bool)
    requires 1 <= i
    ensures NextTickAsWritten(i as real, interval as real, labels) == (i + interval) as real
  {
    if labels {
      var x := i as real * 10.0;
      assert x == (10 * i) as real;
      TruncOfInt(10 * i);
      assert Trunc(x) as real / 10.0 == i as real;
      assert (i as real).Floor == i;
    }
  }

  /** With labels on and interval 0.5, the loop reaches 1.5 and stays there: it never ends for a scale above 1.5. */
  lemma {:induction false} TickLoopStalls()
    ensures NextTickAsWritten(0.5, 0.5, true) == 1.0
    ensures NextTickAsWritten(1.0, 0.5, true) == 1.5
    ensures NextTickAsWritten(1.5, 0.5, true) == 1.5
  {
    TruncOfInt(5);
    TruncOfInt(10);
    assert Trunc(15.0) == 15;
    assert (1.5).Floor == 1;
  }

  /**
   * The tick values the loop is evidently meant to visit for any positive interval,
   * fractional ones included: `from`, `from + interval`, ... below `scale`, with the label
   * rounded on the side. `Ticks` is its whole-number instance.
   */
  function TickValues(interval: real, scale: real, from: real): (ts: seq<real>)
    requires 0.0 < interval
    ensures forall j :: 0 <= j < |ts| ==> ts[j] == from + j as real * interval && ts[j] < scale
    ensures scale <= from + |ts| as real * interval
    decreases if from < scale then ((scale - from) / interval).Floor + 1 else 0
  {
    if from < scale then
      StepsLeftShrink(interval, scale, from);
      var rest := TickValues(interval, scale, from + interval);
      PrependTickValue(interval, scale, from, rest);
      [from] + rest
    else []
  }

  /** For whole numbers the corrected sequence is the one `Ticks` lists. */
  lemma {:induction false} TicksInstance(interval: int, scale: int, from: int)
    requires 0 < interval
    ensures var ts := Ticks(interval, scale, from);
            var vs := TickValues(interval as real, scale as real, from as real);
            |ts| == |vs| && forall j :: 0 <= j < |ts| ==> ts[j] as real == vs[j]
    decreases scale - from
  {
    if from < scale {
      TicksInstance(interval, scale, from + interval);
      assert (from + interval) as real == from as real + interval as real;
      var rest := Ticks(interval, scale, from + interval);
      var restValues := TickValues(interval as real, scale as real, from as real + interval as real);
      assert Ticks(interval, scale, from) == [from] + rest;
      assert TickValues(interval as real, scale as real, from as real) == [from as real] + restValues;
    }
  }

  /** Each tick leaves one step fewer before the scale. */
  lemma {:induction false} StepsLeftShrink(interval: real, scale: real, from: real)
    requires 0.0 < interval && from < scale
    ensures 0 <= ((scale - from) / interval).Floor
    ensures (from + interval < scale ==> ((scale - (from + interval)) / interval).Floor + 1 < ((scale - from) / interval).Floor + 1)
  {
    var q := (scale - from) / interval;
    DivLessOne(scale - from, interval);
    assert scale - (from + interval) == (scale - from) - interval;
    assert (q - 1.0).Floor == q.Floor - 1;
  }

  /** One interval fewer is one step fewer. */
  lemma {:induction false} DivLessOne(a: real, d: real)
    requires 0.0 < d
    ensures (a - d) / d == a / d - 1.0
  {
    MulDivCancel(a, d);
    MulDivCancel(a - d, d);
    var x := (a - d) / d - (a / d - 1.0);
    assert x * d == 0.0;
    assert x == 0.0;
  }

  lemma {:induction false} PrependTickValue(interval: real, scale: real, from: real, rest: seq<real>)
    requires from < scale
    requires forall j :: 0 <= j < |rest| ==> rest[j] == from + interval + j as real * interval && rest[j] < scale
    requires scale <= from + interval + |rest| as real * interval
    ensures forall j :: 0 <= j < |[from] + rest| ==>
              ([from] + rest)[j] == from + j as real * interval && ([from] + rest)[j] < scale
    ensures scale <= from + |[from] + rest| as real * interval
  {
    var ts := [from] + rest;
    forall j | 0 <= j < |ts|
      ensures ts[j] == from + j as real * interval && ts[j] < scale
    {
      if 0 < j {
        assert ts[j] == rest[j - 1];
        assert (j - 1) as real * interval + interval == j as real * interval;
      }
    }
    assert |rest| as real * interval + interval == |ts| as real * interval;
  }
}

=== FILE: gradient.dfy ===
/**
 * Gradient segmentation of one bar: the breakpoints, scaled to cells, cut the bar into
 * runs painted left to right, each in the colours of the band it falls in.
 */
module Gradient {
  import opened Arith
  import opened Optional
  import opened Canvas

  /** A breakpoint after scaling: cells below `value` belong to this band. */
  datatype Band = Band(value: int, style: Style)

  /** A painted run of `count` cells starting `start` cells right of the bar's origin. */
  datatype Segment = Segment(start: int, count: int, style: Style)

  predicate Ascending(bands: seq<Band>) {
    forall i, j :: 0 <= i < j < |bands| ==> bands[i].value <= bands[j].value
  }

  /**
   * The segmentation loop, one breakpoint per call. `last` (cells painted so far) and
   * `size` (where the latest run ended) are the loop's two variables, both 0 at the start.
   * A run is emitted when the band reaches past `last`; it is cut at the bar's end and at
   * the interior width. The loop stops at the first band the bar does not reach, or once
   * a run ends at or past the interior width.
   */
  function Runs(bands: seq<Band>, barLen: int, intW: int, last: int, size: int): (segs: seq<Segment>)
    ensures |segs| <= |bands|
    ensures forall j :: 0 <= j < |segs| ==> segs[j].start + segs[j].count <= Min(barLen, intW)
    ensures 0 <= last && (forall j :: 0 <= j < |bands| ==> 0 <= bands[j].value) ==>
              forall j :: 0 <= j < |segs| ==> 0 <= segs[j].start
    decreases |bands|
  {
    if |bands| == 0 then []
    else
      var value := bands[0].value;
      var reached := if barLen >= value then value else barLen;
      var size' := if value - last > 0 then (if reached > intW then intW else reached) else size;
      var here := if value - last > 0 then [Segment(last, size' - last, bands[0].style)] else [];
      if barLen < value || size' >= intW then here
      else here + Runs(bands[1..], barLen, intW, value, size')
  }

  predicate Covers(s: Segment, k: int) {
    s.start <= k < s.start + s.count
  }

  /** Style left at cell offset `k` once all runs are painted in order (later runs paint over earlier ones). */
  function CellOf(segs: seq<Segment>, k: int): Option<Style>
    decreases |segs|
  {
    if |segs| == 0 then None
    else if Covers(segs[|segs| - 1], k) then Some(segs[|segs| - 1].style)
    else CellOf(segs[..|segs| - 1], k)
  }

  lemma {:induction false} CellOfConcat(a: seq<Segment>, b: seq<Segment>, k: int)
    ensures CellOf(a + b, k) == if CellOf(b, k).Some? then CellOf(b, k) else CellOf(a, k)
    decreases |b|
  {
    if |b| == 0 {
      assert a + b == a;
    } else {
      var ab := a + b;
      assert ab[..|ab| - 1] == a + b[..|b| - 1];
      assert ab[|ab| - 1] == b[|b| - 1];
      CellOfConcat(a, b[..|b| - 1], k);
    }
  }

  /** A painted cell lies in some run. */
  lemma {:induction false} CellOfCovered(segs: seq<Segment>, k: int)
    requires CellOf(segs, k).Some?
    ensures exists j :: 0 <= j < |segs| && Covers(segs[j], k)
    decreases |segs|
  {
    if !Covers(segs[|segs| - 1], k) {
      CellOfCovered(segs[..|segs| - 1], k);
      var j :| 0 <= j < |segs| - 1 && Covers(segs[..|segs| - 1][j], k);
      assert Covers(segs[j], k);
    }
  }

  /** Reference colouring: cell `k` takes the style of the first band whose value exceeds `k`. */
  function FirstAbove(bands: seq<Band>, k: int): Option<Style>
    decreases |bands|
  {
    if |bands| == 0 then None
    else if bands[0].value > k then Some(bands[0].style)
    else FirstAbove(bands[1..], k)
  }

  /** Value of the last band (`last` when there is none): where painting ends at the latest. */
  function Reach(bands: seq<Band>, last: int): int {
    if |bands| == 0 then last else bands[|bands| - 1].value
  }

  /** Cells the bar paints: up to the bar's end, the interior width and the last band, whichever is first. */
  function PaintedEnd(bands: seq<Band>, barLen: int, intW: int): int {
    Min(Min(barLen, intW), Reach(bands, 0))
  }

  /** Sum of the run lengths; a run of negative length paints nothing. */
  function PaintedCells(segs: seq<Segment>): int
    decreases |segs|
  {
    if |segs| == 0 then 0 else Max(0, segs[0].count) + PaintedCells(segs[1..])
  }

  /** Loop-invariant form of `GradientColours`: painting resumes at `last` with `size == last`. */
  lemma {:induction false} RunsPaint(bands: seq<Band>, barLen: int, intW: int, last: int, k: int)
    requires Ascending(bands)
    requires |bands| > 0 ==> last <= bands[0].value
    ensures CellOf(Runs(bands, barLen, intW, last, last), k)
         == if last <= k < Min(Min(barLen, intW), Reach(bands, last)) then FirstAbove(bands, k) else None
    decreases |bands|, 1
  {
    if |bands| > 0 {
      if bands[0].value > last {
        RunsPaintNewRun(bands, barLen, intW, last, k);
      } else {
        RunsPaintNoRun(bands, barLen, intW, last, k);
      }
    }
  }

  /** `RunsPaint` when the first band reaches past `last`, so that a run is emitted. */
  lemma {:induction false} RunsPaintNewRun(bands: seq<Band>, barLen: int, intW: int, last: int, k: int)
    requires Ascending(bands)
    requires |bands| > 0 && last < bands[0].value
    ensures CellOf(Runs(bands, barLen, intW, last, last), k)
         == if last <= k < Min(Min(barLen, intW), Reach(bands, last)) then FirstAbove(bands, k) else None
    decreases |bands|, 0
  {
    var value := bands[0].value;
    var rest := bands[1..];
    assert Reach(bands, last) == Reach(rest, value);
    assert value <= Reach(bands, last);
    var reached := if barLen >= value then value else barLen;
    var size' := if reached > intW then intW else reached;
    var here := [Segment(last, size' - last, bands[0].style)];
    assert CellOf(here, k) == if last <= k < size' then Some(bands[0].style) else None by {
      assert here[..0] == [];
    }
    if !(barLen < value || size' >= intW) {
      assert Ascending(rest);
      assert |rest| > 0 ==> value <= rest[0].value;
      var tail := Runs(rest, barLen, intW, value, size');
      assert Runs(bands, barLen, intW, last, last) == here + tail;
      RunsPaint(rest, barLen, intW, value, k);
      CellOfConcat(here, tail, k);
    } else {
      assert Runs(bands, barLen, intW, last, last) == here;
    }
  }

  /** `RunsPaint` when the first band does not reach past `last`: nothing is emitted for it. */
  lemma {:induction false} RunsPaintNoRun(bands: seq<Band>, barLen: int, intW: int, last: int, k: int)
    requires Ascending(bands)
    requires |bands| > 0 && last == bands[0].value
    ensures CellOf(Runs(bands, barLen, intW, last, last), k)
         == if last <= k < Min(Min(barLen, intW), Reach(bands, last)) then FirstAbove(bands, k) else None
    decreases |bands|, 0
  {
    var rest := bands[1..];
    assert Reach(bands, last) == Reach(rest, last);
    assert last <= Reach(bands, last);
    if !(barLen < last || last >= intW) {
      assert Ascending(rest);
      assert |rest| > 0 ==> last <= rest[0].value;
      assert Runs(bands, barLen, intW, last, last) == Runs(rest, barLen, intW, last, last);
      RunsPaint(rest, barLen, intW, last, k);
      assert last <= k ==> FirstAbove(bands, k) == FirstAbove(rest, k);
    } else {
      assert Runs(bands, barLen, intW, last, last) == [];
    }
  }

  /**
   * For ascending, non-negative bands, cell `k` of the bar is painted exactly when
   * 0 <= k < PaintedEnd, and then in the style of the first band whose value exceeds `k`.
   */
  lemma {:induction false} GradientColours(bands: seq<Band>, barLen: int, intW: int, k: int)
    requires Ascending(bands)
    requires |bands| > 0 ==> 0 <= bands[0].value
    ensures CellOf(Runs(bands, barLen, intW, 0, 0), k)
         == if 0 <= k < PaintedEnd(bands, barLen, intW) then FirstAbove(bands, k) else None
  {
    RunsPaint(bands, barLen, intW, 0, k);
  }

  /** Loop-invariant form of `GradientCellCount`. */
  lemma {:induction false} RunsCount(bands: seq<Band>, barLen: int, intW: int, last: int)
    requires Ascending(bands)
    requires |bands| > 0 ==> last <= bands[0].value
    ensures PaintedCells(Runs(bands, barLen, intW, last, last))
         == Max(0, Min(Min(barLen, intW), Reach(bands, last)) - last)
    decreases |bands|, 1
  {
    if |bands| > 0 {
      if bands[0].value > last {
        RunsCountNewRun(bands, barLen, intW, last);
      } else {
        RunsCountNoRun(bands, barLen, intW, last);
      }
    }
  }

  /** `RunsCount` when the first band reaches past `last`. */
  lemma {:induction false} RunsCountNewRun(bands: seq<Band>, barLen: int, intW: int, last: int)
    requires Ascending(bands)
    requires |bands| > 0 && last < bands[0].value
    ensures PaintedCells(Runs(bands, barLen, intW, last, last))
         == Max(0, Min(Min(barLen, intW), Reach(bands, last)) - last)
    decreases |bands|, 0
  {
    var value := bands[0].value;
    var rest := bands[1..];
    assert Reach(bands, last) == Reach(rest, value);
    assert value <= Reach(bands, last);
    var reached := if barLen >= value then value else barLen;
    var size' := if reached > intW then intW else reached;
    var here := [Segment(last, size' - last, bands[0].style)];
    if !(barLen < value || size' >= intW) {
      assert Ascending(rest);
      assert |rest| > 0 ==> value <= rest[0].value;
      var tail := Runs(rest, barLen, intW, value, size');
      assert Runs(bands, barLen, intW, last, last) == here + tail;
      RunsCount(rest, barLen, intW, value);
      assert (here + tail)[1..] == tail;
    } else {
      assert Runs(bands, barLen, intW, last, last) == here;
      assert here[1..] == [];
    }
  }

  /** `RunsCount` when the first band does not reach past `last`. */
  lemma {:induction false} RunsCountNoRun(bands: seq<Band>, barLen: int, intW: int, last: int)
    requires Ascending(bands)
    requires |bands| > 0 && last == bands[0].value
    ensures PaintedCells(Runs(bands, barLen, intW, last, last))
         == Max(0, Min(Min(barLen, intW), Reach(bands, last)) - last)
    decreases |bands|, 0
  {
    var rest := bands[1..];
    assert Reach(bands, last) == Reach(rest, last);
    assert last <= Reach(bands, last);
    if !(barLen < last || last >= intW) {
      assert Ascending(rest);
      assert |rest| > 0 ==> last <= rest[0].value;
      assert Runs(bands, barLen, intW, last, last) == Runs(rest, barLen, intW, last, last);
      RunsCount(rest, barLen, intW, last);
    } else {
      assert Runs(bands, barLen, intW, last, last) == [];
    }
  }

  /** The runs of ascending, non-negative bands paint exactly `PaintedEnd` cells (none if that is negative). */
  lemma {:induction false} GradientCellCount(bands: seq<Band>, barLen: int, intW: int)
    requires Ascending(bands)
    requires |bands| > 0 ==> 0 <= bands[0].value
    ensures PaintedCells(Runs(bands, barLen, intW, 0, 0)) == Max(0, PaintedEnd(bands, barLen, intW))
  {
    RunsCount(bands, barLen, intW, 0);
  }

  /** Runs laid end to end from `start`, every one but the last non-empty. */
  predicate Contiguous(segs: seq<Segment>, start: int) {
    && (|segs| > 0 ==> segs[0].start == start)
    && forall j :: 0 <= j < |segs| - 1 ==>
         0 < segs[j].count && segs[j + 1].start == segs[j].start + segs[j].count
  }

  /** Loop-invariant form of `GradientContiguous`. */
  lemma {:induction false} RunsContiguous(bands: seq<Band>, barLen: int, intW: int, last: int)
    requires Ascending(bands)
    requires |bands| > 0 ==> last <= bands[0].value
    ensures Contiguous(Runs(bands, barLen, intW, last, last), last)
    decreases |bands|
  {
    if |bands| > 0 {
      var value := bands[0].value;
      var rest := bands[1..];
      assert Ascending(rest);
      assert |rest| > 0 ==> value <= rest[0].value;
      if value > last {
        var reached := if barLen >= value then value else barLen;
        var size' := if reached > intW then intW else reached;
        if !(barLen < value || size' >= intW) {
          var here := Segment(last, size' - last, bands[0].style);
          var tail := Runs(rest, barLen, intW, value, size');
          assert Runs(bands, barLen, intW, last, last) == [here] + tail;
          RunsContiguous(rest, barLen, intW, value);
          PrependRun(here, tail);
        }
      } else if !(barLen < value || last >= intW) {
        assert Runs(bands, barLen, intW, last, last) == Runs(rest, barLen, intW, value, value);
        RunsContiguous(rest, barLen, intW, value);
      }
    }
  }

  lemma {:induction false} PrependRun(s: Segment, tail: seq<Segment>)
    requires 0 < s.count && Contiguous(tail, s.start + s.count)
    ensures Contiguous([s] + tail, s.start)
  {
    var segs := [s] + tail;
    forall j | 0 <= j < |segs| - 1
      ensures 0 < segs[j].count && segs[j + 1].start == segs[j].start + segs[j].count
    {
      if 0 < j {
        assert segs[j] == tail[j - 1] && segs[j + 1] == tail[j];
      }
    }
  }

  /**
   * For ascending, non-negative bands, the first run starts at the bar's origin and each
   * later run starts where the previous one ended; every run but the last is non-empty.
   */
  lemma {:induction false} GradientContiguous(bands: seq<Band>, barLen: int, intW: int)
    requires Ascending(bands)
    requires |bands| > 0 ==> 0 <= bands[0].value
    ensures var segs := Runs(bands, barLen, intW, 0, 0);
            && (|segs| > 0 ==> segs[0].start == 0)
            && forall j :: 0 <= j < |segs| - 1 ==>
                 0 < segs[j].count && segs[j + 1].start == segs[j].start + segs[j].count
  {
    RunsContiguous(bands, barLen, intW, 0);
    assert Contiguous(Runs(bands, barLen, intW, 0, 0), 0);
  }

  /** Whatever the order of non-negative bands, no cell outside [0, min(barLen, intW)) is painted. */
  lemma {:induction false} GradientStaysInBar(bands: seq<Band>, barLen: int, intW: int, k: int)
    requires forall j :: 0 <= j < |bands| ==> 0 <= bands[j].value
    requires CellOf(Runs(bands, barLen, intW, 0, 0), k).Some?
    ensures 0 <= k < Min(barLen, intW)
  {
    CellOfCovered(Runs(bands, barLen, intW, 0, 0), k);
  }
}

=== FILE: numerals.dfy ===
/**
 * Positional numerals: Python's `str(n)` for an integer (base 10) and the digit part
 * of `bin(n)` (base 2), with the parsers that read them back.
 */
module Numerals {
  import opened Arith

  predicate IsDigit(c: char, base: nat) {
    '0' <= c && (c as int) < ('0' as int) + base
  }

  function DigitChar(d: nat): (c: char)
    requires d < 10
    ensures c as int - '0' as int == d
  {
    (('0' as int) + d) as char
  }

  function DigitValue(c: char): int {
    c as int - '0' as int
  }

  lemma {:induction false} DivMod(n: nat, base: nat)
    requires 2 <= base <= n
    ensures n == (n / base) * base + n % base
    ensures 0 <= n % base < base && 0 < n / base < n
  {
  }

  /** The shortest digit string of `n` in `base`: "0" for zero, otherwise no leading zero. */
  function ToDigits(n: nat, base: nat): (s: string)
    requires 2 <= base <= 10
    ensures 1 <= |s|
    ensures forall i :: 0 <= i < |s| ==> IsDigit(s[i], base)
    ensures 0 < n ==> s[0] != '0'
    decreases n
  {
    if n < base then [DigitChar(n)]
    else
      DivMod(n, base);
      ToDigits(n / base, base) + [DigitChar(n % base)]
  }

  /** Reads a digit string, most significant digit first. */
  function FromDigits(s: string, base: nat): int
    decreases |s|
  {
    if |s| == 0 then 0 else FromDigits(s[..|s| - 1], base) * base + DigitValue(s[|s| - 1])
  }

  lemma {:induction false} FromDigitsSnoc(s: string, c: char, base: nat, v: int)
    requires FromDigits(s, base) == v
    ensures FromDigits(s + [c], base) == v * base + DigitValue(c)
  {
    assert (s + [c])[..|s|] == s;
  }

  /** Writing a number and reading it back gives the number. */
  lemma {:induction false} FromToDigits(n: nat, base: nat)
    requires 2 <= base <= 10
    ensures FromDigits(ToDigits(n, base), base) == n
    decreases n
  {
    if n >= base {
      var q, r := n / base, n % base;
      DivMod(n, base);
      FromToDigits(q, base);
      var s := ToDigits(q, base);
      assert ToDigits(n, base) == s + [DigitChar(r)];
      FromDigitsSnoc(s, DigitChar(r), base, q);
    }
  }

  /** Python's `str(n)` for an integer: its decimal digits, after a '-' when negative. */
  function Decimal(n: int): (s: string)
    ensures 1 <= |s| && (n < 0 ==> 2 <= |s|)
    ensures n < 0 <==> s[0] == '-'
    ensures forall i :: (if n < 0 then 1 else 0) <= i < |s| ==> IsDigit(s[i], 10)
    ensures n != 0 ==> s[if n < 0 then 1 else 0] != '0'
  {
    if n < 0 then "-" + ToDigits(-n, 10) else ToDigits(n, 10)
  }

  /** Reads an optionally '-'-signed decimal numeral. */
  function ParseDecimal(s: string): int {
    if 0 < |s| && s[0] == '-' then -FromDigits(s[1..], 10) else FromDigits(s, 10)
  }

  /** Printing an integer and reading it back gives the integer. */
  lemma {:induction false} ParseDecimalInverse(n: int)
    ensures ParseDecimal(Decimal(n)) == n
  {
    if n < 0 {
      FromToDigits(-n, 10);
      assert Decimal(n)[1..] == ToDigits(-n, 10);
    } else {
      FromToDigits(n, 10);
    }
  }

  /** Python's `str.zfill`: left-pads with '0' up to `width` characters. */
  function ZeroFill(s: string, width: nat): (r: string)
    ensures |r| == Max(|s|, width)
    ensures r[|r| - |s|..] == s
    ensures forall i :: 0 <= i < |r| ==> r[i] == if i < |r| - |s| then '0' else s[i - (|r| - |s|)]
  {
    if |s| >= width then s else seq(width - |s|, _ => '0') + s
  }

  /** Zero-filling does not change the value read. */
  lemma {:induction false} ZeroFillValue(s: string, width: nat, base: nat)
    ensures FromDigits(ZeroFill(s, width), base) == FromDigits(s, base)
  {
    var r := ZeroFill(s, width);
    var z := r[..|r| - |s|];
    assert r == z + s;
    FromDigitsLeadingZeros(z, s, base);
  }

  lemma {:induction false} FromDigitsZeros(z: string, base: nat)
    requires forall i :: 0 <= i < |z| ==> z[i] == '0'
    ensures FromDigits(z, base) == 0
    decreases |z|
  {
    if |z| > 0 {
      FromDigitsZeros(z[..|z| - 1], base);
    }
  }

  /** Leading zeros do not change the value read. */
  lemma {:induction false} FromDigitsLeadingZeros(z: string, s: string, base: nat)
    requires forall i :: 0 <= i < |z| ==> z[i] == '0'
    ensures FromDigits(z + s, base) == FromDigits(s, base)
    decreases |s|
  {
    if |s| == 0 {
      assert z + s == z;
      FromDigitsZeros(z, base);
    } else {
      var t := z + s;
      assert t[..|t| - 1] == z + s[..|s| - 1];
      assert t[|t| - 1] == s[|s| - 1];
      FromDigitsLeadingZeros(z, s[..|s| - 1], base);
    }
  }

  /** Binary digit strings, zero-filled or not, are made of '0' and '1' only. */
  lemma {:induction false} BinaryDigits(n: nat, width: nat)
    ensures forall i :: 0 <= i < |ZeroFill(ToDigits(n, 2), width)| ==>
              ZeroFill(ToDigits(n, 2), width)[i] == '0' || ZeroFill(ToDigits(n, 2), width)[i] == '1'
  {
    var s := ToDigits(n, 2);
    var r := ZeroFill(s, width);
    forall i | 0 <= i < |r|
      ensures r[i] == '0' || r[i] == '1'
    {
      if i >= |r| - |s| {
        var c := s[i - (|r| - |s|)];
        assert IsDigit(c, 2);
        assert c as int - '0' as int == 0 || c as int - '0' as int == 1;
      }
    }
  }

  /** Python's `int.bit_length()` for a natural number. */
  function BitLength(n: nat): nat
    decreases n
  {
    if n == 0 then 0 else 1 + BitLength(n / 2)
  }

  /** A positive number of bit length `b` lies in [2^(b-1), 2^b). */
  lemma {:induction false} BitLengthBounds(n: nat)
    ensures n < Pow2(BitLength(n))
    ensures 0 < n ==> Pow2(BitLength(n) - 1) <= n
    decreases n
  {
    if n > 0 {
      BitLengthBounds(n / 2);
    }
  }

  /** The binary digit string of `n` has exactly `max(1, bit_length(n))` digits. */
  lemma {:induction false} BinaryDigitsLength(n: nat)
    ensures |ToDigits(n, 2)| == Max(1, BitLength(n))
    decreases n
  {
    if n >= 2 {
      BinaryDigitsLength(n / 2);
    }
  }
}

=== FILE: optional.dfy ===
/** A value that may be absent: the renderer's `None` defaults (scale, gap, intervals). */
module Optional {

  datatype Option<+T> = None | Some(value: T) {

    /** The carried value, or `default` when absent. */
    function GetOr(default: T): T {
      match this
      case Some(v) => v
      case None => default
    }
  }
}

=== FILE: render.dfy ===
/**
 * One drawing pass of the bar chart: from the interior box, the chart configuration and
 * the current readings (one per bar) to the ordered list of writes the pass issues.
 * Order of writes: axes, axis labels, interval ticks, then each bar in turn (its key,
 * its reading, then its runs).
 */
module Render {
  import opened Arith
  import opened Optional
  import opened Numerals
  import opened Canvas
  import opened ChartSpec
  import opened Geometry
  import opened Gradient

  /** Axes, ticks and labels are green; the background defaults to black. */
  const AxisStyle := Style(Green, Black)
  const KeyStyle := Style(Yellow, Black)
  const ReadingStyle := Style(Cyan, Black)

  /** Everything derived from the box and the configuration before any bar is drawn. */
  datatype Layout = Layout(inner: Box, keyX: int, scale: int, barSize: int, gap: real)

  function Plan(box: Box, chart: Chart, n: nat): Layout {
    var inner := Reserve(box, |chart.keys| > 0, chart.axes, chart.labels);
    var barSize := BarSize(inner.intH, n);
    Layout(inner, box.startX, EffectiveScale(chart.scale, inner.intW), barSize, Gap(chart.gap, inner.intH, barSize, n))
  }

  /** How a pass ends: with the writes it issued, in an exception, or never. */
  datatype Outcome = Drawn(ws: seq<Write>) | Raises | Hangs

  /**
   * The tick loop `while i < scale: ... i += intervals` ends: there are no intervals, or
   * the first one is already at the scale, or the steps are positive.
   */
  predicate TickLoopEnds(intervals: Option<int>, scale: int) {
    intervals.None? || scale <= intervals.value || 0 < intervals.value
  }

  /**
   * What drawing bars needs: a non-zero scale to divide by, a colour and a background to
   * cycle through, and a key for each of the `n` bars when keys are given.
   */
  predicate BarsDrawable(L: Layout, chart: Chart, n: nat) {
    && L.scale != 0 && 0 < |chart.colours| && 0 < |chart.bgs|
    && (|chart.keys| == 0 || n <= |chart.keys|)
  }

  function AxisWrites(inner: Box, axes: Axes, lines: LineChars): seq<Write> {
    (if axes.x then [Write(Fill(lines.h, inner.intW), inner.startX, inner.startY + inner.intH, AxisStyle)] else [])
    + (if axes.y then Column(Str([lines.v]), inner.startX - 1, inner.startY, inner.intH, AxisStyle) else [])
    + (if axes.x && axes.y then [Write(Str([lines.upRight]), inner.startX - 1, inner.startY + inner.intH, AxisStyle)] else [])
  }

  /**
   * The label row: "0" at the interior's left edge and the scale, right-aligned on its
   * right edge, on the row below the interior (below the X axis when there is one).
   */
  function LabelWrites(L: Layout, chart: Chart): (ws: seq<Write>)
    ensures !chart.labels ==> ws == []
    ensures chart.labels ==>
              var pos := L.inner.startY + L.inner.intH + (if chart.axes.x then 1 else 0);
              && |ws| == 2
              && ws[0] == Write(Str("0"), L.inner.startX, pos, AxisStyle)
              && ws[1].y == pos && ws[1].style == AxisStyle && ws[1].text.Str?
              && ws[1].x + |ws[1].text.s| == L.inner.startX + L.inner.intW
              && ParseDecimal(ws[1].text.s) == L.scale
              && 1 <= |ws[1].text.s| && (L.scale < 0 ==> 2 <= |ws[1].text.s|)
              && (forall i :: (if L.scale < 0 then 1 else 0) <= i < |ws[1].text.s| ==> IsDigit(ws[1].text.s[i], 10))
              && (L.scale < 0 <==> ws[1].text.s[0] == '-')
              && (L.scale != 0 ==> ws[1].text.s[if L.scale < 0 then 1 else 0] != '0')
  {
    if chart.labels then
      var pos := L.inner.startY + L.inner.intH + (if chart.axes.x then 1 else 0);
      var text := Decimal(L.scale);
      ParseDecimalInverse(L.scale);
      [Write(Str("0"), L.inner.startX, pos, AxisStyle),
       Write(Str(text), L.inner.startX + L.inner.intW - |text|, pos, AxisStyle)]
    else []
  }

  /**
   * One interval tick: a full-height mark, the tick on the axis row and, with labels,
   * the interval value centred under it.
   */
  function TickMark(L: Layout, chart: Chart, t: nat): (ws: seq<Write>)
    requires L.scale != 0
    ensures var x := TickX(L.inner.startX, L.inner.intW, L.scale, t);
            && |ws| == Max(0, L.inner.intH) + 1 + (if chart.labels then 1 else 0)
            && (forall j :: 0 <= j < |ws| ==> ws[j].style == AxisStyle)
            && (forall j :: 0 <= j < |ws| - (if chart.labels then 1 else 0) ==> ws[j].x == x)
            && (forall j :: 0 <= j < Max(0, L.inner.intH) ==>
                  ws[j] == Write(Str([chart.lines.vInside]), x, L.inner.startY + j, AxisStyle))
            && ws[Max(0, L.inner.intH)] == Write(Str([chart.lines.hUp]), x, L.inner.startY + L.inner.intH, AxisStyle)
            && (chart.labels ==>
                  var w := ws[|ws| - 1];
                  && w.text.Str? && w.y == L.inner.startY + L.inner.intH + 1
                  && w.x + |w.text.s| / 2 == x
                  && (forall c :: c in w.text.s ==> IsDigit(c, 10))
                  && 0 < |w.text.s| && (0 < t ==> w.text.s[0] != '0')
                  && FromDigits(w.text.s, 10) == t)
  {
    var x := TickX(L.inner.startX, L.inner.intW, L.scale, t);
    var b := L.inner;
    var mark := Column(Str([chart.lines.vInside]), x, b.startY, b.intH, AxisStyle)
                + [Write(Str([chart.lines.hUp]), x, b.startY + b.intH, AxisStyle)];
    if chart.labels then
      var val := ToDigits(t, 10);
      FromToDigits(t, 10);
      mark + [Write(Str(val), x - |val| / 2, b.startY + b.intH + 1, AxisStyle)]
    else mark
  }

  function TickMarks(L: Layout, chart: Chart, ts: seq<int>): seq<Write>
    requires L.scale != 0
    requires forall j :: 0 <= j < |ts| ==> 0 < ts[j]
    decreases |ts|
  {
    if |ts| == 0 then [] else TickMark(L, chart, ts[0]) + TickMarks(L, chart, ts[1..])
  }

  function IntervalWrites(L: Layout, chart: Chart): seq<Write>
    requires TickLoopEnds(chart.intervals, L.scale)
  {
    match chart.intervals
    case None => []
    case Some(interval) =>
      if L.scale <= interval then []
      else
        var ts := Ticks(interval, L.scale, interval);
        assert forall j :: 0 <= j < |ts| ==> 0 < ts[j] by {
          forall j | 0 <= j < |ts|
            ensures 0 < ts[j]
          {
            assert 0 <= j * interval;
          }
        }
        TickMarks(L, chart, ts)
  }

  /** Everything drawn before the bars; it does not depend on the readings. */
  function Decorations(L: Layout, chart: Chart): seq<Write>
    requires TickLoopEnds(chart.intervals, L.scale)
  {
    AxisWrites(L.inner, chart.axes, chart.lines) + LabelWrites(L, chart) + IntervalWrites(L, chart)
  }

  /** Longest key, the width the keys are right-aligned to. */
  function MaxLength(keys: seq<string>): (m: nat)
    ensures forall j :: 0 <= j < |keys| ==> |keys[j]| <= m
    ensures 0 < |keys| ==> exists j :: 0 <= j < |keys| && |keys[j]| == m
    decreases |keys|
  {
    if |keys| == 0 then 0
    else
      var m := MaxLength(keys[1..]);
      assert forall j :: 1 <= j < |keys| ==> keys[j] == keys[1..][j - 1];
      if |keys[0]| >= m then |keys[0]| else m
  }

  /** The breakpoints scaled to cells, in order. */
  function ScaleBands(gradient: seq<Breakpoint>, intW: int, scale: int): (bands: seq<Band>)
    requires scale != 0
  {
    seq(|gradient|, j requires 0 <= j < |gradient| =>
      Band(Cells(gradient[j].threshold, intW, scale), gradient[j].style))
  }

  predicate ThresholdsAscending(gradient: seq<Breakpoint>) {
    && (forall j :: 0 <= j < |gradient| ==> 0.0 <= gradient[j].threshold)
    && forall i, j :: 0 <= i < j < |gradient| ==> gradient[i].threshold <= gradient[j].threshold
  }

  /** Ascending non-negative thresholds scale to ascending non-negative cell counts. */
  lemma {:induction false} ScaledBandsAscending(gradient: seq<Breakpoint>, intW: int, scale: int)
    requires 0 < scale && 0 <= intW && ThresholdsAscending(gradient)
    ensures var bands := ScaleBands(gradient, intW, scale);
            Ascending(bands) && (forall j :: 0 <= j < |bands| ==> 0 <= bands[j].value)
  {
    var bands := ScaleBands(gradient, intW, scale);
    forall j | 0 <= j < |bands|
      ensures 0 <= bands[j].value
    {
      CellsMonotone(gradient[j].threshold, gradient[j].threshold, intW, scale);
    }
    forall i, j | 0 <= i < j < |bands|
      ensures bands[i].value <= bands[j].value
    {
      CellsMonotone(gradient[i].threshold, gradient[j].threshold, intW, scale);
    }
  }

  /** Runs painted on every row of the bar, run after run. */
  function PaintRuns(segs: seq<Segment>, glyph: char, x0: int, y: int, rows: int): (ws: seq<Write>)
    ensures forall j :: 0 <= j < |ws| ==> y <= ws[j].y < y + rows && ws[j].text.Fill? && ws[j].text.glyph == glyph
    decreases |segs|
  {
    if |segs| == 0 then []
    else
      var s := segs[|segs| - 1];
      PaintRuns(segs[..|segs| - 1], glyph, x0, y, rows) + Column(Fill(glyph, s.count), x0 + s.start, y, rows, s.style)
  }

  /** On each of the bar's rows, cell x0 + k shows the paint the runs leave at offset k; other rows stay blank. */
  lemma {:induction false} FillAtPaintRuns(segs: seq<Segment>, glyph: char, x0: int, y: int, rows: int, yy: int, k: int)
    ensures FillAt(PaintRuns(segs, glyph, x0, y, rows), x0 + k, yy)
         == if y <= yy < y + rows then CellOf(segs, k) else None
    decreases |segs|
  {
    if |segs| > 0 {
      var s := segs[|segs| - 1];
      var front := PaintRuns(segs[..|segs| - 1], glyph, x0, y, rows);
      var col := Column(Fill(glyph, s.count), x0 + s.start, y, rows, s.style);
      assert PaintRuns(segs, glyph, x0, y, rows) == front + col;
      FillAtConcat(front, col, x0 + k, yy);
      FillAtColumn(glyph, s.count, x0 + s.start, y, rows, s.style, x0 + k, yy);
      FillAtPaintRuns(segs[..|segs| - 1], glyph, x0, y, rows, yy, k);
    }
  }

  function BarRowOf(L: Layout, i: nat): int {
    BarRow(L.inner.startY, i, L.barSize, L.gap)
  }

  function BarLengthOf(L: Layout, v: real): int
    requires L.scale != 0
  {
    Cells(v, L.inner.intW, L.scale)
  }

  /** The glyph runs of bar `i` with reading `v`: gradient runs, or one solid run in the bar's colours. */
  function BarWrites(L: Layout, chart: Chart, i: nat, v: real): seq<Write>
    requires L.scale != 0 && 0 < |chart.colours| && 0 < |chart.bgs|
  {
    var row := BarRowOf(L, i);
    var len := BarLengthOf(L, v);
    if |chart.gradient| > 0 then
      var bands := ScaleBands(chart.gradient, L.inner.intW, L.scale);
      PaintRuns(Runs(bands, len, L.inner.intW, 0, 0), chart.glyph, L.inner.startX, row, L.barSize)
    else
      var style := Style(chart.colours[i % |chart.colours|], chart.bgs[i % |chart.bgs|]);
      Column(Fill(chart.glyph, len), L.inner.startX, row, L.barSize, style)
  }

  /**
   * With a gradient of ascending non-negative thresholds, cell k of the bar (on any of its
   * rows) is painted exactly when 0 <= k < min(bar length, interior width, last scaled
   * threshold), in the colours of the first breakpoint whose scaled threshold exceeds k.
   */
  lemma {:induction false} GradientBarCells(L: Layout, chart: Chart, i: nat, v: real, yy: int, k: int)
    requires 0 < L.scale && 0 <= L.inner.intW && 0 < |chart.colours| && 0 < |chart.bgs|
    requires 0 < |chart.gradient| && ThresholdsAscending(chart.gradient)
    ensures var bands := ScaleBands(chart.gradient, L.inner.intW, L.scale);
            var row := BarRowOf(L, i);
            FillAt(BarWrites(L, chart, i, v), L.inner.startX + k, yy)
              == if row <= yy < row + L.barSize && 0 <= k < PaintedEnd(bands, BarLengthOf(L, v), L.inner.intW)
                 then FirstAbove(bands, k) else None
  {
    var bands := ScaleBands(chart.gradient, L.inner.intW, L.scale);
    var len := BarLengthOf(L, v);
    var row := BarRowOf(L, i);
    ScaledBandsAscending(chart.gradient, L.inner.intW, L.scale);
    FillAtPaintRuns(Runs(bands, len, L.inner.intW, 0, 0), chart.glyph, L.inner.startX, row, L.barSize, yy, k);
    GradientColours(bands, len, L.inner.intW, k);
  }

  /** Without a gradient, the bar paints exactly its first `bar_len` cells, on each of its rows, in its own colours. */
  lemma {:induction false} SolidBarCells(L: Layout, chart: Chart, i: nat, v: real, yy: int, k: int)
    requires L.scale != 0 && 0 < |chart.colours| && 0 < |chart.bgs| && |chart.gradient| == 0
    ensures var row := BarRowOf(L, i);
            FillAt(BarWrites(L, chart, i, v), L.inner.startX + k, yy)
              == if row <= yy < row + L.barSize && 0 <= k < BarLengthOf(L, v)
                 then Some(Style(chart.colours[i % |chart.colours|], chart.bgs[i % |chart.bgs|])) else None
  {
    var style := Style(chart.colours[i % |chart.colours|], chart.bgs[i % |chart.bgs|]);
    FillAtColumn(chart.glyph, BarLengthOf(L, v), L.inner.startX, BarRowOf(L, i), L.barSize, style, L.inner.startX + k, yy);
  }

  /**
   * Everything drawn for bar `i`. With keys, the key is written first on the bar's top row,
   * right-aligned to the longest key, and the reading two rows below it, starting in the
   * same column; then come the bar's runs.
   */
  function BarBlock(L: Layout, chart: Chart, i: nat, v: real): (ws: seq<Write>)
    requires L.scale != 0 && 0 < |chart.colours| && 0 < |chart.bgs|
    requires 0 < |chart.keys| ==> i < |chart.keys|
    ensures |chart.keys| == 0 ==> ws == BarWrites(L, chart, i, v)
    ensures 0 < |chart.keys| ==>
              var key := chart.keys[i];
              && 2 <= |ws|
              && ws[0].text == Str(key) && ws[0].y == BarRowOf(L, i) && ws[0].style == KeyStyle
              && ws[0].x + |key| == L.keyX + MaxLength(chart.keys)
              && ws[1] == Write(Reading(v), ws[0].x, BarRowOf(L, i) + 2, ReadingStyle)
              && ws[2..] == BarWrites(L, chart, i, v)
  {
    var row := BarRowOf(L, i);
    var keyPart :=
      if 0 < |chart.keys| then
        var key := chart.keys[i];
        var x := L.keyX + (MaxLength(chart.keys) - |key|);
        [Write(Str(key), x, row, KeyStyle), Write(Reading(v), x, row + 2, ReadingStyle)]
      else [];
    keyPart + BarWrites(L, chart, i, v)
  }

  /** The blocks of all bars, in index order. */
  function BarBlocks(L: Layout, chart: Chart, values: seq<real>): (blocks: seq<seq<Write>>)
    requires 0 < |values| ==> BarsDrawable(L, chart, |values|)
    ensures |blocks| == |values|
  {
    seq(|values|, j requires 0 <= j < |values| => BarBlock(L, chart, j, values[j]))
  }

  /** The writes of one pass once the layout is fixed: decorations first, then every bar's block in index order. */
  function Draw(L: Layout, chart: Chart, values: seq<real>): (ws: seq<Write>)
    requires TickLoopEnds(chart.intervals, L.scale)
    requires 0 < |values| ==> BarsDrawable(L, chart, |values|)
    ensures var d := Decorations(L, chart);
            |d| <= |ws| && ws[..|d|] == d
  {
    Decorations(L, chart) + Concat(BarBlocks(L, chart, values))
  }

  /**
   * The drawing pass: plan the layout, then draw. The tick loop divides by the scale and
   * loops forever when its steps never reach the scale; each bar divides by the scale,
   * picks its colours modulo their number and, when keys are given, reads its own key.
   */
  function Render(box: Box, chart: Chart, values: seq<real>): (r: Outcome)
    ensures var L := Plan(box, chart, |values|);
            && (r.Hangs? <==> chart.intervals.Some? && chart.intervals.value <= 0
                              && chart.intervals.value < L.scale && L.scale != 0)
            && (r.Drawn? <==> TickLoopEnds(chart.intervals, L.scale)
                              && (0 < |values| ==> BarsDrawable(L, chart, |values|)))
            && (r.Drawn? ==> r.ws == Draw(L, chart, values))
  {
    var L := Plan(box, chart, |values|);
    if !TickLoopEnds(chart.intervals, L.scale) then
      if L.scale == 0 then Raises else Hangs
    else if 0 < |values| && !BarsDrawable(L, chart, |values|) then Raises
    else Drawn(Draw(L, chart, values))
  }

  /** The pass writes nothing after the last bar: its length is the decorations plus every bar's block. */
  lemma {:induction false} DrawEndsAtLastBar(L: Layout, chart: Chart, values: seq<real>, d: seq<Write>, blocks: seq<seq<Write>>)
    requires TickLoopEnds(chart.intervals, L.scale)
    requires 0 < |values| ==> BarsDrawable(L, chart, |values|)
    requires d == Decorations(L, chart) && blocks == BarBlocks(L, chart, values)
    ensures |Draw(L, chart, values)| == |d| + Offset(blocks, |values|)
  {
    ConcatLength(blocks);
  }

  /**
   * Every bar is drawn, whole and in index order: with `d` the decorations and `blocks`
   * the bars' blocks, the writes of bar `i` appear as one contiguous run right after the
   * decorations and the blocks of bars 0 .. i-1.
   */
  lemma {:induction false} DrawsEveryBar(L: Layout, chart: Chart, values: seq<real>, i: nat, d: seq<Write>, blocks: seq<seq<Write>>)
    requires TickLoopEnds(chart.intervals, L.scale) && BarsDrawable(L, chart, |values|)
    requires i < |values|
    requires d == Decorations(L, chart) && blocks == BarBlocks(L, chart, values)
    ensures blocks[i] == BarBlock(L, chart, i, values[i])
    ensures |d| + Offset(blocks, i) + |blocks[i]| <= |Draw(L, chart, values)|
    ensures Draw(L, chart, values)[|d| + Offset(blocks, i)..|d| + Offset(blocks, i) + |blocks[i]|] == blocks[i]
  {
    PrefixThenBlock(d, blocks, i);
  }

  /**
   * The lines reserved by the layout are the ones drawn on: the X axis runs along the row
   * just below the interior, from the interior's left column to the box's right edge; the
   * Y axis fills the column just right of the key column; the label row is the box's last row.
   */
  lemma {:induction false} AxesOnReservedLines(box: Box, chart: Chart, n: nat)
    ensures var L := Plan(box, chart, n);
            var ws := AxisWrites(L.inner, chart.axes, chart.lines);
            var keyed := box.startX + (if 0 < |chart.keys| then KeyColumn else 0);
            && (chart.axes.x ==>
                  && ws[0].text == Fill(chart.lines.h, ws[0].text.count)
                  && ws[0].y == box.startY + box.intH - 1 - (if chart.labels then 1 else 0)
                  && ws[0].x == keyed + (if chart.axes.y then 1 else 0)
                  && ws[0].x + ws[0].text.count == box.startX + box.intW)
            && (chart.axes.y ==>
                  var o := if chart.axes.x then 1 else 0;
                  ws[o..o + Max(0, L.inner.intH)] == Column(Str([chart.lines.v]), keyed, box.startY, L.inner.intH, AxisStyle))
            && (chart.labels ==>
                  forall w :: w in LabelWrites(L, chart) ==> w.y == box.startY + box.intH - 1)
  {
  }
}
